=== FILE: README.md ===
# Janino class body evaluator, modelled in Dafny

Janino's `ClassBodyEvaluator` compiles the body of a class: fields, methods
and member types, without the surrounding `class` header. It does this by
wrapping the body in a synthetic compilation unit:

- an optional `package` declaration;
- the configured default imports, followed by the source's own leading
  `import` directives;
- one public class. The class is named by the simple part of the configured
  class name. It extends the configured class and implements the configured
  interfaces. Its members are every declaration the scanner delivers up to
  end of input.

The evaluator compiles that unit and loads the class. It can hand the class out
through `getClazz` or instantiate it. Its configuration (default imports, class
name, superclass, interfaces) can change only until the evaluator is cooked.

The model is functional. An evaluator is an immutable `Evaluator` value made of
its `Config`, the inherited lifecycle flag `cooked`, the loaded `result`, and a
flag saying whether the instance is exactly the evaluator class. Each setter
returns the state after the call together with the exception it threw, if any.
`createInstance` returns the evaluator afterwards together with a `Result` (a `Call`). Each other operation returns a `Result`.

The scanner is modelled as a sequence of abstract tokens: `Import(d)` (a whole
import directive, `import` keyword and `;` included), `ImportBody(d)` (the body
of an import directive alone, as a default import string holds it),
`Member(m)` (a whole class body declaration) and `EOF`. A scanner delivers
nothing after the first `EOF`, and reports `EOF` once it runs dry. Each default
import is its own token sequence. Compilation plus class
loading (`compileToClass`) is a function parameter. So is reflective
instantiation (`Class.newInstance`).

Modules:

- `Wrappers`: `Option` and `Result`.
- `Syntax`: tokens, sources and the unit's syntax tree.
- `Errors`: the exception taxonomy and messages.
- `ClassName`: splitting the class name.
- `Configuration`: configuration, lifecycle and setters.
- `UnitBuilder`: `makeCompilationUnit`, `addPackageMemberClassDeclaration` and the member loop of `cook`.
- `ClassBodyEvaluator`: `cook`, `getClazz`, `createInstance`, the fast factories and the deprecated setters.

The default class name is `"SC"`, the value of `IClassBodyEvaluator.DEFAULT_CLASS_NAME`. That interface is not part of this model.

On these points the model follows the code exactly:

- A `null` class name or interface array throws `NullPointerException` (`NullArgument`). This is checked *before* the not-cooked guard, so a `null` argument on a cooked evaluator still reports the null.
- `setDefaultImports` and `setExtendedClass` accept `null` ("none") and check only the lifecycle.
- The fast factory with an explicit name throws a runtime exception (`InternalError`), not a compile error, when the generated constructor is not accessible.

## Model

| member | source | states |
|---|---|---|
| ClassName.LastIndexOf | janino/src/org/codehaus/janino/ClassBodyEvaluator.java:323 | the result is -1 exactly when the character does not occur; otherwise it is an index holding the character with no occurrence after it |
| ClassName.Split | janino/src/org/codehaus/janino/ClassBodyEvaluator.java:322-327 | the simple name contains no '.'; there is a package exactly when the class name contains '.'; package + "." + simple name (or the simple name alone) rebuilds the class name |
| ClassName.SplitJoin | janino/src/org/codehaus/janino/ClassBodyEvaluator.java:322-327 | the converse round trip: any package joined to a dot-free simple name splits back into exactly that package and simple name, so the split is at the last '.' |
| Configuration.NewEvaluator | janino/src/org/codehaus/janino/ClassBodyEvaluator.java:93-97 | a new evaluator is uncooked with no result, no default imports, the default class name, no superclass and an empty interface list |
| Configuration.SetDefaultImports | janino/src/org/codehaus/janino/ClassBodyEvaluator.java:219-222 | throws exactly when cooked, and then leaves the evaluator unchanged; otherwise it sets the default imports (null allowed) and changes nothing else |
| Configuration.SetClassName | janino/src/org/codehaus/janino/ClassBodyEvaluator.java:224-228 | null throws a null-argument error even when cooked; otherwise it throws AlreadyCooked exactly when cooked; a throwing call changes nothing; a successful one sets only the class name |
| Configuration.SetExtendedClass | janino/src/org/codehaus/janino/ClassBodyEvaluator.java:230-233 | throws exactly when cooked, and then changes nothing; otherwise it sets only the superclass (null allowed) |
| Configuration.SetImplementedInterfaces | janino/src/org/codehaus/janino/ClassBodyEvaluator.java:240-244 | null throws a null-argument error before the lifecycle check; otherwise it throws exactly when cooked; a throwing call changes nothing; a successful one sets only the interface list |
| Configuration.Apply | janino/src/org/codehaus/janino/ClassBodyEvaluator.java:219-244 | for any setter call, the exception is NullArgument for a forbidden null, else AlreadyCooked when cooked, else none; a throwing call changes nothing; no setter changes the lifecycle; setters keep "a result implies cooked" |
| Configuration.ApplyAllKeepsLifecycle | janino/src/org/codehaus/janino/ClassBodyEvaluator.java:219-244 | any sequence of setter calls leaves the cooked flag, the result and the exactness unchanged |
| Configuration.SettersFailOnceCooked | janino/src/org/codehaus/janino/ClassBodyEvaluator.java:219-244 | on a cooked evaluator every setter call in any sequence throws, and the sequence leaves the evaluator exactly as it was |
| UnitBuilder.ParseDefaultImport | janino/src/org/codehaus/janino/ClassBodyEvaluator.java:291-293 | succeeds exactly when the default import delivers one import body and then end of input, and returns that body; a token left after the body gives the "unexpected token in default import" parse error naming that token; any other first token, a whole import directive included, is the parser's error on that token |
| UnitBuilder.ParseDefaultImports | janino/src/org/codehaus/janino/ClassBodyEvaluator.java:289-295 | succeeds exactly when every default import is well formed, and returns their bodies in configured order; on failure the error is that of the first ill-formed default import |
| UnitBuilder.TakeImports | janino/src/org/codehaus/janino/ClassBodyEvaluator.java:298-303 | the source is the taken import directives followed by the rest, and the rest does not start with an import, so the maximal import prefix is taken |
| UnitBuilder.ParseMembers | janino/src/org/codehaus/janino/ClassBodyEvaluator.java:262-266 | on success the source is the parsed members followed by a rest that starts at end of input, so nothing delivered is left unconsumed; the only failure is an import directive or a bare import body met inside the class body |
| UnitBuilder.ParseMembersReportsFirstNonMember | janino/src/org/codehaus/janino/ClassBodyEvaluator.java:262-266 | on a stream of member declarations followed by any token that is neither a member nor end of input, the loop fails with the parser's error naming exactly that first non-member token, whatever comes after it |
| UnitBuilder.ParseMembersComplete | janino/src/org/codehaus/janino/ClassBodyEvaluator.java:264-266 | a source that delivers only member declarations is parsed successfully into exactly those members, in order |
| UnitBuilder.ParseMembersSound | janino/src/org/codehaus/janino/ClassBodyEvaluator.java:264-266 | the parsed members are exactly what the scanner delivers |
| UnitBuilder.MakeCompilationUnit | janino/src/org/codehaus/janino/ClassBodyEvaluator.java:283-306 | fails exactly when a default import is ill formed; the unit starts with the default imports in order, followed by the source's maximal import prefix; it carries the source's file name, or none and no source imports when there is no source |
| UnitBuilder.AddPackageMemberClassDeclaration | janino/src/org/codehaus/janino/ClassBodyEvaluator.java:318-338 | appends exactly one public declaration with no members and keeps the unit's earlier declarations and imports; its name has no '.'; a dot-free class name leaves the package as it was and is the declaration's name; a dotted one sets the package, and package + "." + name is the class name; superclass and interfaces are exactly the configured ones, in order |
| UnitBuilder.BuildUnit | janino/src/org/codehaus/janino/ClassBodyEvaluator.java:251-266 | an ill-formed default import fails the build with its error whatever the source; a built unit has the source's file name, the split package and exactly one top-level declaration, the configured wrapping class |
| UnitBuilder.ImportPrefixUnique | janino/src/org/codehaus/janino/ClassBodyEvaluator.java:300-302 | a token stream determines its leading import directives: two decompositions into imports plus a non-import rest coincide |
| UnitBuilder.TakeImportsComplete | janino/src/org/codehaus/janino/ClassBodyEvaluator.java:298-303 | for a source delivering import directives then member declarations, the import loop takes exactly those directives and leaves a rest delivering exactly the members |
| UnitBuilder.BuildUnitSound | janino/src/org/codehaus/janino/ClassBodyEvaluator.java:289-302 | a built unit implies well-formed default imports; its imports are the default ones in configured order followed by the source's in source order; what the scanner delivers is exactly those source imports followed by the class's members |
| UnitBuilder.BuildUnitComplete | janino/src/org/codehaus/janino/ClassBodyEvaluator.java:289-302 | with well-formed default imports and a source delivering imports then members, the build succeeds; its imports are the defaults followed by those imports, and the class holds exactly those members |
| ClassBodyEvaluator.Cook | janino/src/org/codehaus/janino/ClassBodyEvaluator.java:251-274 | succeeds exactly when the evaluator is not cooked, the unit builds and the compiler loads the configured class; a cooked evaluator refuses to cook again; a failed build is propagated; a failed compilation is a compile error; on success the evaluator is cooked, its result is the class compiled from the built unit under the configured name, and the configuration is unchanged |
| ClassBodyEvaluator.GetClazz | janino/src/org/codehaus/janino/ClassBodyEvaluator.java:365-369 | succeeds exactly on an exact instance with a result, returning the result; a subclass instance gets DerivedInstance, checked first; an uncooked one gets NotCooked |
| ClassBodyEvaluator.Instantiate | janino/src/org/codehaus/janino/ClassBodyEvaluator.java:374-384 | a created object is returned; an instantiation failure and an access failure become compile errors with their two distinct messages |
| ClassBodyEvaluator.CreateInstance | janino/src/org/codehaus/janino/ClassBodyEvaluator.java:371-385 | a failing cook's error is passed on; once the cook succeeds the evaluator afterwards is the cooked one whatever follows; a subclass instance then fails with DerivedInstance, an exact one gives the reflective instantiation of the loaded class with its two translated failures; success holds exactly when the cook succeeds on an exact instance and the loaded class instantiates |
| ClassBodyEvaluator.CreateInstanceLeavesCooked | janino/src/org/codehaus/janino/ClassBodyEvaluator.java:371-385 | after a createInstance whose cook succeeded, even one whose instantiation threw, the evaluator is cooked: every setter throws, a second cook fails with AlreadyCooked, and an exact instance hands out the compiled class |
| ClassBodyEvaluator.FastBaseTypes | janino/src/org/codehaus/janino/ClassBodyEvaluator.java:414-421 | an interface base type is implemented and not extended; a class base type is extended with no interfaces; no base type gives neither |
| ClassBodyEvaluator.FastConfigure | janino/src/org/codehaus/janino/ClassBodyEvaluator.java:447-450 | the fast factory's setters fail, with NullArgument, exactly when the name or the interface array is null; otherwise they leave an uncooked exact evaluator with exactly the given name, superclass and interfaces |
| ClassBodyEvaluator.FastInstantiate | janino/src/org/codehaus/janino/ClassBodyEvaluator.java:454-461 | a created object is returned; an instantiation failure becomes the compile error about missing method implementations; an access failure becomes an internal runtime error |
| ClassBodyEvaluator.CreateFast | janino/src/org/codehaus/janino/ClassBodyEvaluator.java:440-462 | a null name or interface array fails with NullArgument; otherwise, over the unit built with exactly the given name, superclass and interfaces and no default imports: a build error is passed on, a failed compilation is a compile error, and a compiled class gives the fast factory's instantiation of it, so success holds exactly when all of these succeed |
| ClassBodyEvaluator.CreateFastMatchesCreateInstance | janino/src/org/codehaus/janino/ClassBodyEvaluator.java:440-462 | the fast factory agrees with the setter sequence it runs at :447-450 (class name, superclass, interfaces) followed by createInstance: both succeed together with the same object, and any failure other than how an instantiation failure is reported is the same error |
| ClassBodyEvaluator.CreateFastFromBase | janino/src/org/codehaus/janino/ClassBodyEvaluator.java:406-424 | over the unit built with the default name and the base type placed as superclass or interface: a build error is passed on, a failed compilation is a compile error, a compiled class gives the fast factory's instantiation; a returned object is what that class instantiates to; the null check never fires |
| ClassBodyEvaluator.FastBaseTypePlacement | janino/src/org/codehaus/janino/ClassBodyEvaluator.java:411-421 | whenever the single-base-type factory's unit (the one its result is made from) builds, it has one public class in the default package named by the default name, extending the base type if it is a class, implementing only it if it is an interface, and neither without one |
| ClassBodyEvaluator.GetClazzBeforeCook | janino/src/org/codehaus/janino/ClassBodyEvaluator.java:365-368 | a freshly constructed evaluator hands out no class: NotCooked on an exact instance, DerivedInstance on a subclass |
| ClassBodyEvaluator.CookThenGetClazz | janino/src/org/codehaus/janino/ClassBodyEvaluator.java:268-273 | after a successful cook an exact instance's getClazz returns the compiled class, and any second cook fails with AlreadyCooked |
| ClassBodyEvaluator.SetExtendedType | janino/src/org/codehaus/janino/ClassBodyEvaluator.java:236-238 | the deprecated setter behaves as setExtendedClass: throws AlreadyCooked exactly when cooked and then changes nothing; otherwise it sets only the superclass (null allowed) and keeps the lifecycle |
| ClassBodyEvaluator.SetImplementedTypesAsWritten | janino/src/org/codehaus/janino/ClassBodyEvaluator.java:247-249 | the deprecated setter as written throws a stack overflow for every stack depth and never changes the evaluator |
| ClassBodyEvaluator.SetImplementedTypes | janino/src/org/codehaus/janino/ClassBodyEvaluator.java:247-249 | the deprecated setter as intended behaves as setImplementedInterfaces: null throws a null-argument error before the lifecycle check; otherwise it throws AlreadyCooked exactly when cooked; a throwing call changes nothing; a successful one sets only the interface list and keeps the lifecycle |
| ClassBodyEvaluator.SetImplementedTypesDiscrepancy | janino/src/org/codehaus/janino/ClassBodyEvaluator.java:247-249 | on a fresh evaluator with an empty array the written setter throws at every stack depth while the intended one succeeds |

## Left out

- Scanning and parsing proper: tokens are whole import directives, bare import bodies and whole member declarations, and a malformed directive, body or member is not representable. The only parse errors modelled are a wrong token kind where an import body or a class body declaration is expected, and a token left over in a default import.
- The "unexpected token in default import" error carries the index of the default import in the configured list. That index is an addition of the model: the source's exception carries the token and a location inside the scanner opened on that one import string.
- Source locations (`scanner.location()`) and the unit's location tags are not modelled; only the file name is.
- `setUpClassLoaders`, `compileToClassLoader`, the parent class loader, debugging-information levels and `cl.loadClass` are not modelled. They are class-loading machinery. Compilation plus loading is the `Compiler` parameter; its `None` stands for a `CompileException`.
- The "generated unit does not declare the class" runtime exception of `compileToClass` is left out. It is machinery of the same kind.
- ClassBodyEvaluator.Cook: the not-cooked guard at the start of a cook is the inherited one, taken to run inside `setUpClassLoaders`. Whether a failing cook leaves the evaluator cooked is decided by inherited code that is not part of this model; a failing `Cook` returns no new state.
- `setDefaultImports` and `setImplementedInterfaces` keep a reference to the caller's array, so writes the caller makes to it later, before `cook`, change what is compiled. The model stores the sequence's value at the time of the call.
- ClassBodyEvaluator.CreateInstance: when the cook fails, the evaluator is returned unchanged, for the reason given for `Cook`.
- Class-name-to-type translation is one-to-one (`classToType`, `classesToTypes`). A `null` element inside the interface array is not modelled.
- A `null` element inside the default-imports array is not modelled: each default import is a token sequence. In the code such an element makes `cook` throw `NullPointerException` when it opens a reader on it, after the lifecycle guard.
- A derived instance (one whose class is not exactly the evaluator class) is taken not to override `cook`, `addPackageMemberClassDeclaration` or `getClazz`, nor to write the protected `className` field directly; the states the model gives for derived instances rest on this.
- The documentation comment of the explicit-name fast factory lists an equivalent sequence without `setClassName`; the model follows the code, which does set the class name.
- `Class.newInstance` is the `Instantiator` parameter. The class of the object it returns is not constrained to be the class it was asked to instantiate. Exception chaining (`initCause`) and the exception text in the fast factory's internal error are not modelled.
- `createInstance(Reader)` goes through the inherited `cook(Reader)`; it is modelled as cooking a token `Source` directly.
- The convenience constructors are not modelled; they are mechanical forwarding to the setters and `cook`.
- Concurrency is not modelled; an evaluator is used by one thread.

## Findings

| source | as written | input that shows it | evidently intended | confidence | as-written member | corrected member |
|---|---|---|---|---|---|---|
| janino/src/org/codehaus/janino/ClassBodyEvaluator.java:247-249 | the deprecated `setImplementedTypes` calls itself, so every call recurses until the stack overflows | any call, e.g. `setImplementedTypes(new Class[0])` on a fresh evaluator | forward to `setImplementedInterfaces`, as `setExtendedType` forwards to `setExtendedClass` | high; not executed | ClassBodyEvaluator.SetImplementedTypesAsWritten | ClassBodyEvaluator.SetImplementedTypes |

=== FILE: classname.dfy ===
/**
  Splitting the configured class name into a package and a simple name, at the
  last '.', the way the wrapping class declaration is named.
 */
module ClassName {
  import opened Wrappers

  /** A class name taken apart: the package (absent for the default package) and the simple name. */
  datatype QualifiedName = QualifiedName(packageName: Option<string>, simpleName: string)

  /**
    `String.lastIndexOf(char)`: the greatest index in the character sequence
    holding `c`, or -1 when there is none. Java counts UTF-16 code units, so
    its index differs after a supplementary character; the text on either
    side of the index is the same.
   */
  function LastIndexOf(s: string, c: char): (r: int)
    ensures -1 <= r < |s|
    ensures r == -1 <==> c !in s
    ensures 0 <= r ==> s[r] == c && c !in s[r + 1..]
    decreases |s|
  {
    if |s| == 0 then -1
    else if s[|s| - 1] == c then |s| - 1
    else
      var r := LastIndexOf(s[..|s| - 1], c);
      assert s == s[..|s| - 1] + [s[|s| - 1]];
      assert 0 <= r ==> s[r + 1..] == s[..|s| - 1][r + 1..] + [s[|s| - 1]];
      r
  }

  /** The name a qualified name stands for: package, '.', simple name. */
  function Join(q: QualifiedName): string {
    match q.packageName
    case None => q.simpleName
    case Some(p) => p + "." + q.simpleName
  }

  /**
    The package is everything before the last '.', the simple name everything
    after it; without a '.', there is no package and the simple name is the
    whole name.
   */
  function Split(className: string): (q: QualifiedName)
    ensures '.' !in q.simpleName
    ensures q.packageName.None? <==> '.' !in className
    ensures Join(q) == className
  {
    var idx := LastIndexOf(className, '.');
    if idx != -1 then
      var q := QualifiedName(Some(className[..idx]), className[idx + 1..]);
      assert className == className[..idx] + "." + className[idx + 1..];
      q
    else
      QualifiedName(None, className)
  }

  /** An occurrence of `c` with none after it is the one `LastIndexOf` finds. */
  lemma {:induction false} LastIndexOfUnique(s: string, c: char, k: nat)
    requires k < |s| && s[k] == c && c !in s[k + 1..]
    ensures LastIndexOf(s, c) == k
    decreases |s|
  {
    if k < |s| - 1 {
      assert s[|s| - 1] in s[k + 1..];
      assert s[..|s| - 1][k + 1..] == s[k + 1..|s| - 1];
      LastIndexOfUnique(s[..|s| - 1], c, k);
    }
  }

  /**
    The split is the unique one: any package joined to a dot-free simple name
    splits back into exactly that package and simple name.
   */
  lemma SplitJoin(q: QualifiedName)
    requires '.' !in q.simpleName
    ensures Split(Join(q)) == q
  {
    match q.packageName
    case None =>
    case Some(p) =>
      var s := Join(q);
      assert s[|p|] == '.' && s[..|p|] == p && s[|p| + 1..] == q.simpleName;
      LastIndexOfUnique(s, '.', |p|);
  }
}

=== FILE: configuration.dfy ===
/**
  The evaluator's one-shot configuration, its lifecycle flags, and the setters
  that may change the configuration only while the evaluator is not cooked.
 */
module Configuration {
  import opened Wrappers
  import opened Syntax
  import opened Errors

  /** The class name used when none is configured (`IClassBodyEvaluator.DEFAULT_CLASS_NAME`). */
  const DEFAULT_CLASS_NAME: string := "SC"

  /**
    The configuration fields. Each default import is the token stream of its
    own little scanner; `None` for the whole list means "no default imports".
   */
  datatype Config = Config(
    defaultImports: Option<seq<seq<Token>>>,
    className: string,
    extended: Option<ClassRef>,
    implemented: seq<ClassRef>
  )

  /** The configuration of a freshly constructed evaluator. */
  const INITIAL_CONFIG: Config := Config(None, DEFAULT_CLASS_NAME, None, [])

  /**
    An evaluator instance. `cooked` is the inherited lifecycle state that the
    not-cooked guard tests; `result` is the loaded class (absent means
    uncooked); `exactClass` says whether the instance's runtime class is
    exactly the evaluator class rather than a subclass.
   */
  datatype Evaluator = Evaluator(
    config: Config,
    cooked: bool,
    result: Option<ClassRef>,
    exactClass: bool
  )

  /** A loaded result implies the evaluator has been cooked. */
  predicate Consistent(e: Evaluator) {
    e.result.Some? ==> e.cooked
  }

  /** The lifecycle part of the state: everything but the configuration. */
  predicate SameLifecycle(e: Evaluator, e': Evaluator) {
    e'.cooked == e.cooked && e'.result == e.result && e'.exactClass == e.exactClass
  }

  /** A new evaluator: default configuration, not cooked, no result. */
  function NewEvaluator(exactClass: bool): (e: Evaluator)
    ensures Consistent(e) && !e.cooked && e.result.None?
    ensures e.exactClass == exactClass
    ensures e.config.className == DEFAULT_CLASS_NAME && e.config.implemented == []
    ensures e.config.defaultImports.None? && e.config.extended.None?
  {
    Evaluator(INITIAL_CONFIG, false, None, exactClass)
  }

  /** The configuration fields a setter may write. */
  datatype Field = DefaultImportsField | ClassNameField | ExtendedClassField | ImplementedInterfacesField

  /** `a` and `b` agree on every configuration field other than `f`. */
  predicate SameExcept(a: Config, b: Config, f: Field) {
    && (f == DefaultImportsField || a.defaultImports == b.defaultImports)
    && (f == ClassNameField || a.className == b.className)
    && (f == ExtendedClassField || a.extended == b.extended)
    && (f == ImplementedInterfacesField || a.implemented == b.implemented)
  }

  /** The state after a call to a `void` method, and the exception it threw, if any. */
  datatype Step = Step(after: Evaluator, thrown: Option<Error>)

  /** A step viewed as a result: the new state, or the exception. */
  function Checked(s: Step): (r: Result<Evaluator, Error>)
    ensures r.Success? <==> s.thrown.None?
    ensures r.Success? ==> r.value == s.after
    ensures r.Failure? ==> r.error == s.thrown.value
  {
    match s.thrown
    case None => Success(s.after)
    case Some(err) => Failure(err)
  }

  /** The inherited guard: throws once the evaluator is cooked. */
  function AssertNotCooked(e: Evaluator): Option<Error> {
    if e.cooked then Some(AlreadyCooked) else None
  }

  /** `setDefaultImports`: `null` is allowed and means "none". */
  function SetDefaultImports(e: Evaluator, defaultImports: Option<seq<seq<Token>>>): (s: Step)
    ensures s.thrown.Some? <==> e.cooked
    ensures s.thrown.Some? ==> s.thrown.value == AlreadyCooked && s.after == e
    ensures s.thrown.None? ==>
      && s.after.config.defaultImports == defaultImports
      && SameExcept(e.config, s.after.config, DefaultImportsField)
      && SameLifecycle(e, s.after)
  {
    match AssertNotCooked(e)
    case Some(err) => Step(e, Some(err))
    case None => Step(e.(config := e.config.(defaultImports := defaultImports)), None)
  }

  /** `setClassName`: `null` is rejected before the lifecycle is looked at. */
  function SetClassName(e: Evaluator, className: Option<string>): (s: Step)
    ensures s.thrown.Some? <==> className.None? || e.cooked
    ensures className.None? ==> s.thrown == Some(NullArgument)
    ensures className.Some? && e.cooked ==> s.thrown == Some(AlreadyCooked)
    ensures s.thrown.Some? ==> s.after == e
    ensures s.thrown.None? ==>
      && s.after.config.className == className.value
      && SameExcept(e.config, s.after.config, ClassNameField)
      && SameLifecycle(e, s.after)
  {
    match className
    case None => Step(e, Some(NullArgument))
    case Some(name) =>
      match AssertNotCooked(e)
      case Some(err) => Step(e, Some(err))
      case None => Step(e.(config := e.config.(className := name)), None)
  }

  /** `setExtendedClass`: `null` is allowed and means "extends nothing in particular". */
  function SetExtendedClass(e: Evaluator, extended: Option<ClassRef>): (s: Step)
    ensures s.thrown.Some? <==> e.cooked
    ensures s.thrown.Some? ==> s.thrown.value == AlreadyCooked && s.after == e
    ensures s.thrown.None? ==>
      && s.after.config.extended == extended
      && SameExcept(e.config, s.after.config, ExtendedClassField)
      && SameLifecycle(e, s.after)
  {
    match AssertNotCooked(e)
    case Some(err) => Step(e, Some(err))
    case None => Step(e.(config := e.config.(extended := extended)), None)
  }

  /**
    `setImplementedInterfaces`: "no interfaces" must be an empty array; `null`
    is rejected before the lifecycle is looked at.
   */
  function SetImplementedInterfaces(e: Evaluator, implemented: Option<seq<ClassRef>>): (s: Step)
    ensures s.thrown.Some? <==> implemented.None? || e.cooked
    ensures implemented.None? ==> s.thrown == Some(NullArgument)
    ensures implemented.Some? && e.cooked ==> s.thrown == Some(AlreadyCooked)
    ensures s.thrown.Some? ==> s.after == e
    ensures s.thrown.None? ==>
      && s.after.config.implemented == implemented.value
      && SameExcept(e.config, s.after.config, ImplementedInterfacesField)
      && SameLifecycle(e, s.after)
  {
    match implemented
    case None => Step(e, Some(NullArgument))
    case Some(types) =>
      match AssertNotCooked(e)
      case Some(err) => Step(e, Some(err))
      case None => Step(e.(config := e.config.(implemented := types)), None)
  }

  /** A call of one of the four setters, with its argument. */
  datatype SetterCall =
    | SetDefaultImportsCall(defaultImports: Option<seq<seq<Token>>>)
    | SetClassNameCall(className: Option<string>)
    | SetExtendedClassCall(extended: Option<ClassRef>)
    | SetImplementedInterfacesCall(implemented: Option<seq<ClassRef>>)

  /** The setters that reject a `null` argument, called with `null`. */
  predicate IsNullArgument(call: SetterCall) {
    || (call.SetClassNameCall? && call.className.None?)
    || (call.SetImplementedInterfacesCall? && call.implemented.None?)
  }

  /** Performs one setter call. */
  function Apply(e: Evaluator, call: SetterCall): (s: Step)
    ensures s.thrown == (if IsNullArgument(call) then Some(NullArgument)
                         else if e.cooked then Some(AlreadyCooked)
                         else None)
    ensures s.thrown.Some? ==> s.after == e
    ensures SameLifecycle(e, s.after)
    ensures Consistent(e) ==> Consistent(s.after)
  {
    match call
    case SetDefaultImportsCall(d) => SetDefaultImports(e, d)
    case SetClassNameCall(n) => SetClassName(e, n)
    case SetExtendedClassCall(x) => SetExtendedClass(e, x)
    case SetImplementedInterfacesCall(i) => SetImplementedInterfaces(e, i)
  }

  /** Performs a sequence of setter calls in order, ignoring what each throws. */
  function ApplyAll(e: Evaluator, calls: seq<SetterCall>): Evaluator
    decreases |calls|
  {
    if |calls| == 0 then e else ApplyAll(Apply(e, calls[0]).after, calls[1..])
  }

  /** Setters never move the lifecycle: a cooked evaluator stays cooked, an uncooked one uncooked. */
  lemma {:induction false} ApplyAllKeepsLifecycle(e: Evaluator, calls: seq<SetterCall>)
    ensures SameLifecycle(e, ApplyAll(e, calls))
    decreases |calls|
  {
    if |calls| > 0 {
      ApplyAllKeepsLifecycle(Apply(e, calls[0]).after, calls[1..]);
    }
  }

  /**
    Once cooked, every setter fails, whichever setters are called and in
    whichever order, and the evaluator is left exactly as it was.
   */
  lemma {:induction false} SettersFailOnceCooked(e: Evaluator, calls: seq<SetterCall>)
    requires e.cooked
    ensures forall i :: 0 <= i < |calls| ==> Apply(e, calls[i]).thrown.Some?
    ensures ApplyAll(e, calls) == e
    decreases |calls|
  {
    if |calls| > 0 {
      SettersFailOnceCooked(e, calls[1..]);
      assert forall i :: 1 <= i < |calls| ==> calls[i] == calls[1..][i - 1];
    }
  }
}

=== FILE: errors.dfy ===
/** The exceptions the evaluator can throw, one constructor per cause. */
module Errors {
  import opened Syntax

  datatype Error =
    /** `NullPointerException` from a setter handed `null` where it forbids it. */
    | NullArgument
    /** `IllegalStateException` from the inherited not-cooked guard. */
    | AlreadyCooked
    /** `IllegalStateException`: `getClazz` called on a subclass instance. */
    | DerivedInstance
    /** `IllegalStateException`: `getClazz` called before a successful cook. */
    | NotCooked
    /** `ParseException`: a default import has a token left after its import body. */
    | UnexpectedTokenInDefaultImport(index: nat, token: Token)
    /** `ParseException` raised by the parser itself on an unexpected token. */
    | ParseFailure(token: Token)
    /** `CompileException` from compiling the synthetic unit. */
    | CompileFailure
    /** `CompileException` translated from a failed reflective instantiation. */
    | CannotInstantiate(message: string)
    /** `JaninoRuntimeException`: a case the authors consider impossible. */
    | InternalError(message: string)
    /** `StackOverflowError` from unbounded recursion. */
    | StackOverflow

  /** The parse errors: malformed default imports and the parser's own complaints. */
  predicate IsSyntaxError(e: Error) {
    e.UnexpectedTokenInDefaultImport? || e.ParseFailure?
  }

  /** Message of `createInstance` when the class cannot be instantiated. */
  const NOT_INSTANTIABLE: string :=
    "Class is abstract, an interface, an array class, a primitive type, or void; or has no zero-parameter constructor"

  /** Message of `createInstance` when the constructor is not accessible. */
  const NOT_ACCESSIBLE: string :=
    "The class or its zero-parameter constructor is not accessible"

  /** Message of the fast factory when the generated class is abstract. */
  const MISSING_IMPLEMENTATIONS: string :=
    "Cannot instantiate abstract class -- one or more method implementations are missing"
}

=== FILE: evaluator.dfy ===
/**
  The class body evaluator itself: cooking a source into a loaded class,
  handing that class out, instantiating it, and the one-call fast factories.
  Compilation and class loading are a parameter `compile`; reflective
  instantiation is a parameter `newInstance`.
 */
module ClassBodyEvaluator {
  import opened Wrappers
  import opened Syntax
  import opened Errors
  import opened Configuration
  import opened UnitBuilder

  /**
    `compileToClass`: compiles a unit and loads the class of the given fully
    qualified name; `None` stands for a `CompileException`.
   */
  type Compiler = (CompilationUnit, string) -> Option<ClassRef>

  /** A live object of a loaded class. */
  datatype ObjectRef = ObjectRef(cls: ClassRef, id: nat)

  /** What `Class.newInstance()` does: return an object or throw one of two exceptions. */
  datatype Instantiation =
    | Created(obj: ObjectRef)
    | InstantiationException
    | IllegalAccessException

  /**
    Reflective instantiation of a loaded class. The class of the returned
    object is left unconstrained: the model does not require it to be the
    class passed in.
   */
  type Instantiator = ClassRef -> Instantiation

  /**
    `cook(Scanner)`: refused once cooked; otherwise builds the unit from the
    source, compiles it and loads the configured class, which becomes the
    result. The configuration is not touched.
   */
  function Cook(e: Evaluator, source: Source, compile: Compiler): (r: Result<Evaluator, Error>)
    ensures r.Success? <==>
      && !e.cooked
      && BuildUnit(e.config, source).Success?
      && compile(BuildUnit(e.config, source).value, e.config.className).Some?
    ensures e.cooked ==> r == Failure(AlreadyCooked)
    ensures !e.cooked && BuildUnit(e.config, source).Failure? ==> r == Failure(BuildUnit(e.config, source).error)
    ensures r.Success? ==>
      && !e.cooked
      && BuildUnit(e.config, source).Success?
      && r.value.cooked
      && r.value.result == compile(BuildUnit(e.config, source).value, e.config.className)
      && r.value.result.Some?
      && r.value.config == e.config
      && r.value.exactClass == e.exactClass
    ensures r.Failure? && !e.cooked && BuildUnit(e.config, source).Success? ==> r.error == CompileFailure
    ensures r.Failure? ==> r.error == AlreadyCooked || r.error == CompileFailure || IsSyntaxError(r.error)
    ensures r.Success? ==> Consistent(r.value)
  {
    if e.cooked then Failure(AlreadyCooked)
    else
      var cu :- BuildUnit(e.config, source);
      match compile(cu, e.config.className)
      case None => Failure(CompileFailure)
      case Some(c) => Success(e.(cooked := true, result := Some(c)))
  }

  /**
    `getClazz`: only on an instance of exactly this class, and only once a
    result is there.
   */
  function GetClazz(e: Evaluator): (r: Result<ClassRef, Error>)
    ensures r.Success? <==> e.exactClass && e.result.Some?
    ensures !e.exactClass ==> r == Failure(DerivedInstance)
    ensures e.exactClass && e.result.None? ==> r == Failure(NotCooked)
    ensures r.Success? ==> e.result == Some(r.value)
  {
    if !e.exactClass then Failure(DerivedInstance)
    else if e.result.None? then Failure(NotCooked)
    else Success(e.result.value)
  }

  /** A freshly constructed evaluator hands out no class. */
  lemma GetClazzBeforeCook(exactClass: bool)
    ensures GetClazz(NewEvaluator(exactClass)).Failure?
    ensures exactClass ==> GetClazz(NewEvaluator(exactClass)).error == NotCooked
    ensures !exactClass ==> GetClazz(NewEvaluator(exactClass)).error == DerivedInstance
  {
  }

  /**
    After a successful cook, `getClazz` on an exact instance returns the class
    loaded from the built unit under the configured name, and a second cook
    is refused.
   */
  lemma CookThenGetClazz(e: Evaluator, source: Source, compile: Compiler, again: Source, compile': Compiler)
    requires e.exactClass
    requires Cook(e, source, compile).Success?
    ensures var e' := Cook(e, source, compile).value;
      && GetClazz(e') == Success(compile(BuildUnit(e.config, source).value, e.config.className).value)
      && Cook(e', again, compile') == Failure(AlreadyCooked)
  {
  }

  /** Reflective instantiation, with the failure messages of `createInstance`. */
  function Instantiate(c: ClassRef, newInstance: Instantiator): (r: Result<ObjectRef, Error>)
    ensures r.Success? <==> newInstance(c).Created?
    ensures r.Success? ==> r.value == newInstance(c).obj
    ensures newInstance(c).InstantiationException? ==> r == Failure(CannotInstantiate(NOT_INSTANTIABLE))
    ensures newInstance(c).IllegalAccessException? ==> r == Failure(CannotInstantiate(NOT_ACCESSIBLE))
  {
    match newInstance(c)
    case Created(obj) => Success(obj)
    case InstantiationException => Failure(CannotInstantiate(NOT_INSTANTIABLE))
    case IllegalAccessException => Failure(CannotInstantiate(NOT_ACCESSIBLE))
  }

  /**
    A call on an evaluator: the evaluator afterwards, and what the call
    returned or threw.
   */
  datatype Call<T> = Call(after: Evaluator, outcome: Result<T, Error>)

  /**
    `createInstance`: cook, fetch the class, instantiate it. Once the cook has
    succeeded the evaluator stays cooked, whatever happens afterwards.
   */
  function CreateInstance(e: Evaluator, source: Source, compile: Compiler, newInstance: Instantiator)
    : (r: Call<ObjectRef>)
    ensures Cook(e, source, compile).Failure? ==> r == Call(e, Failure(Cook(e, source, compile).error))
    ensures Cook(e, source, compile).Success? ==>
      var cooked := Cook(e, source, compile).value;
      && r.after == cooked
      && (!e.exactClass ==> r.outcome == Failure(DerivedInstance))
      && (e.exactClass ==> r.outcome == Instantiate(cooked.result.value, newInstance))
    ensures r.outcome.Success? <==>
      && Cook(e, source, compile).Success?
      && e.exactClass
      && newInstance(Cook(e, source, compile).value.result.value).Created?
  {
    match Cook(e, source, compile)
    case Failure(err) => Call(e, Failure(err))
    case Success(cooked) =>
      match GetClazz(cooked)
      case Failure(err) => Call(cooked, Failure(err))
      case Success(c) => Call(cooked, Instantiate(c, newInstance))
  }

  /**
    Whatever `createInstance` returns or throws after a successful cook, the
    evaluator is cooked: every setter throws, a second cook is refused, and an
    exact instance hands out the loaded class.
   */
  lemma CreateInstanceLeavesCooked(
    e: Evaluator, source: Source, compile: Compiler, newInstance: Instantiator,
    call: SetterCall, again: Source, compile': Compiler)
    requires Cook(e, source, compile).Success?
    ensures var after := CreateInstance(e, source, compile, newInstance).after;
      && after.cooked
      && Apply(after, call).thrown.Some?
      && Cook(after, again, compile') == Failure(AlreadyCooked)
      && (e.exactClass ==>
            GetClazz(after) == Success(compile(BuildUnit(e.config, source).value, e.config.className).value))
  {
  }

  /**
    The base-type placement of the fast factory: an interface is implemented,
    any other class is extended, and no base type gives neither.
   */
  function FastBaseTypes(base: Option<ClassRef>): (p: (Option<ClassRef>, seq<ClassRef>))
    ensures base.None? ==> p.0.None? && p.1 == []
    ensures base.Some? && base.value.isInterface ==> p.0.None? && p.1 == [base.value]
    ensures base.Some? && !base.value.isInterface ==> p.0 == base && p.1 == []
  {
    var extended := if base.Some? && !base.value.isInterface then base else None;
    var implemented := if base.Some? && base.value.isInterface then [base.value] else [];
    (extended, implemented)
  }

  /** The configuration the fast factory's setters leave behind. */
  function FastConfig(className: string, extended: Option<ClassRef>, implemented: seq<ClassRef>): Config {
    Config(None, className, extended, implemented)
  }

  /**
    The configuration steps of the fast factory: a new exact evaluator, then
    class name, superclass and interfaces, each of which may throw.
   */
  function FastConfigure(className: Option<string>, extended: Option<ClassRef>, implemented: Option<seq<ClassRef>>)
    : (r: Result<Evaluator, Error>)
    ensures r.Success? <==> className.Some? && implemented.Some?
    ensures r.Failure? ==> r.error == NullArgument
    ensures r.Success? ==>
      && r.value == NewEvaluator(true).(config := FastConfig(className.value, extended, implemented.value))
  {
    var e0 := NewEvaluator(true);
    var e1 :- Checked(SetClassName(e0, className));
    // a fresh evaluator is not cooked, so this setter cannot throw
    var e2 := SetExtendedClass(e1, extended).after;
    var e3 :- Checked(SetImplementedInterfaces(e2, implemented));
    Success(e3)
  }

  /**
    Reflective instantiation as the fast factory translates its failures: an
    abstract class gets its own compile error; an inaccessible constructor is
    considered impossible and reported as an internal error.
   */
  function FastInstantiate(c: ClassRef, newInstance: Instantiator): (r: Result<ObjectRef, Error>)
    ensures r.Success? <==> newInstance(c).Created?
    ensures r.Success? ==> r.value == newInstance(c).obj
    ensures newInstance(c).InstantiationException? ==> r == Failure(CannotInstantiate(MISSING_IMPLEMENTATIONS))
    ensures newInstance(c).IllegalAccessException? ==> r.Failure? && r.error.InternalError?
  {
    match newInstance(c)
    case Created(obj) => Success(obj)
    case InstantiationException => Failure(CannotInstantiate(MISSING_IMPLEMENTATIONS))
    case IllegalAccessException => Failure(InternalError("java.lang.IllegalAccessException"))
  }

  /**
    `createFastClassBodyEvaluator` with an explicit name, superclass and
    interfaces: configure, cook, fetch the class and instantiate it.
   */
  function CreateFast(
    source: Source, className: Option<string>, extended: Option<ClassRef>, implemented: Option<seq<ClassRef>>,
    compile: Compiler, newInstance: Instantiator): (r: Result<ObjectRef, Error>)
    ensures className.None? || implemented.None? ==> r == Failure(NullArgument)
    ensures className.Some? && implemented.Some? ==>
      var built := BuildUnit(FastConfig(className.value, extended, implemented.value), source);
      && (built.Failure? ==> r == Failure(built.error))
      && (built.Success? && compile(built.value, className.value).None? ==> r == Failure(CompileFailure))
      && (built.Success? && compile(built.value, className.value).Some? ==>
            r == FastInstantiate(compile(built.value, className.value).value, newInstance))
  {
    var e :- FastConfigure(className, extended, implemented);
    var cooked :- Cook(e, source, compile);
    // the evaluator is exact and cooked, so this cannot throw
    var c := GetClazz(cooked).value;
    FastInstantiate(c, newInstance)
  }

  /**
    The fast factory is the setter sequence followed by `createInstance`: on
    the evaluator its setters configure, both succeed together with the same
    object, and they fail alike except for how a failed instantiation is
    reported.
   */
  lemma CreateFastMatchesCreateInstance(
    source: Source, className: string, extended: Option<ClassRef>, implemented: seq<ClassRef>,
    compile: Compiler, newInstance: Instantiator)
    ensures
      var e := FastConfigure(Some(className), extended, Some(implemented)).value;
      var slow := CreateInstance(e, source, compile, newInstance).outcome;
      var fast := CreateFast(source, Some(className), extended, Some(implemented), compile, newInstance);
      && (fast.Success? <==> slow.Success?)
      && (fast.Success? ==> fast.value == slow.value)
      && (fast.Failure? && !fast.error.CannotInstantiate? && !fast.error.InternalError? ==> slow == fast)
      && (slow.Failure? && !slow.error.CannotInstantiate? ==> slow == fast)
  {
  }

  /** The configuration the single-base-type factory compiles with. */
  function PlacedConfig(base: Option<ClassRef>): Config {
    var p := FastBaseTypes(base);
    FastConfig(DEFAULT_CLASS_NAME, p.0, p.1)
  }

  /**
    `createFastClassBodyEvaluator` with one optional base type and the default
    class name: the base type is placed as superclass or interface, then the
    unit is built, compiled and instantiated.
   */
  function CreateFastFromBase(source: Source, base: Option<ClassRef>, compile: Compiler, newInstance: Instantiator)
    : (r: Result<ObjectRef, Error>)
    ensures
      var built := BuildUnit(PlacedConfig(base), source);
      && (built.Failure? ==> r == Failure(built.error))
      && (built.Success? && compile(built.value, DEFAULT_CLASS_NAME).None? ==> r == Failure(CompileFailure))
      && (built.Success? && compile(built.value, DEFAULT_CLASS_NAME).Some? ==>
            r == FastInstantiate(compile(built.value, DEFAULT_CLASS_NAME).value, newInstance))
    ensures r.Success? ==>
      && BuildUnit(PlacedConfig(base), source).Success?
      && newInstance(compile(BuildUnit(PlacedConfig(base), source).value, DEFAULT_CLASS_NAME).value) == Created(r.value)
    ensures r.Failure? ==> r.error != NullArgument
  {
    var p := FastBaseTypes(base);
    CreateFast(source, Some(DEFAULT_CLASS_NAME), p.0, Some(p.1), compile, newInstance)
  }

  /**
    The class the fast factory with a base type compiles: in the default
    package, named by the default name, extending the base type if it is a
    class, implementing it if it is an interface, and nothing else.
   */
  lemma FastBaseTypePlacement(source: Source, base: Option<ClassRef>)
    ensures
      var built := BuildUnit(PlacedConfig(base), source);
      built.Success? ==>
        var d := built.value.types[0];
        && |built.value.types| == 1
        && built.value.packageName.None?
        && d.isPublic && d.name == DEFAULT_CLASS_NAME
        && (base.None? ==> d.extended.None? && d.implemented == [])
        && (base.Some? && base.value.isInterface ==> d.extended.None? && d.implemented == [TypeRef(base.value)])
        && (base.Some? && !base.value.isInterface ==> d.extended == Some(TypeRef(base.value)) && d.implemented == [])
  {
  }

  /** The deprecated `setExtendedType`: forwards to `setExtendedClass`. */
  function SetExtendedType(e: Evaluator, extended: Option<ClassRef>): (s: Step)
    ensures s.thrown.Some? <==> e.cooked
    ensures s.thrown.Some? ==> s.thrown.value == AlreadyCooked && s.after == e
    ensures s.thrown.None? ==>
      && s.after.config.extended == extended
      && SameExcept(e.config, s.after.config, ExtendedClassField)
      && SameLifecycle(e, s.after)
  {
    SetExtendedClass(e, extended)
  }

  /**
    The deprecated `setImplementedTypes` as written: it calls itself instead of
    `setImplementedInterfaces`. `stackDepth` is the number of frames left on
    the thread's stack; when they run out the call throws.
   */
  function SetImplementedTypesAsWritten(e: Evaluator, implemented: Option<seq<ClassRef>>, stackDepth: nat): (s: Step)
    ensures s.thrown == Some(StackOverflow)
    ensures s.after == e
    decreases stackDepth
  {
    if stackDepth == 0 then Step(e, Some(StackOverflow))
    else SetImplementedTypesAsWritten(e, implemented, stackDepth - 1)
  }

  /** The deprecated `setImplementedTypes` as intended: forwards to `setImplementedInterfaces`. */
  function SetImplementedTypes(e: Evaluator, implemented: Option<seq<ClassRef>>): (s: Step)
    ensures s.thrown.Some? <==> implemented.None? || e.cooked
    ensures implemented.None? ==> s.thrown == Some(NullArgument)
    ensures implemented.Some? && e.cooked ==> s.thrown == Some(AlreadyCooked)
    ensures s.thrown.Some? ==> s.after == e
    ensures s.thrown.None? ==>
      && s.after.config.implemented == implemented.value
      && SameExcept(e.config, s.after.config, ImplementedInterfacesField)
      && SameLifecycle(e, s.after)
  {
    SetImplementedInterfaces(e, implemented)
  }

  /**
    The discrepancy: on a fresh evaluator with an empty interface list, the
    deprecated setter as written throws however deep the stack, while the
    intended one succeeds.
   */
  lemma SetImplementedTypesDiscrepancy(stackDepth: nat)
    ensures SetImplementedTypesAsWritten(NewEvaluator(true), Some([]), stackDepth).thrown.Some?
    ensures SetImplementedTypes(NewEvaluator(true), Some([])).thrown.None?
  {
  }
}

=== FILE: syntax.dfy ===
/**
  The abstract token stream that stands in for the scanner, and the synthetic
  syntax tree (compilation unit, class declaration) the evaluator builds.
 */
module Syntax {
  import opened Wrappers

  /** A class or interface of the running virtual machine, as a `Class` object. */
  datatype ClassRef = ClassRef(name: string, isInterface: bool)

  /** One parsed import directive; its inner structure is the parser's business. */
  datatype ImportDecl = ImportDecl(text: string)

  /** One parsed class body declaration (field, method, initializer, member type). */
  datatype MemberDecl = MemberDecl(text: string)

  /**
    What the scanner hands the parser, at the granularity the evaluator cares
    about: a whole import directive (keyword, body and ';'), a bare import body
    (what a default import string holds, without keyword or ';'), a whole
    member declaration, or end of input.
   */
  datatype Token =
    | Import(decl: ImportDecl)
    | ImportBody(decl: ImportDecl)
    | Member(member: MemberDecl)
    | EOF

  /** A scanner: its optional file name and the tokens it will deliver. */
  datatype Source = Source(fileName: Option<string>, tokens: seq<Token>)

  /** The next token; a scanner that has run dry keeps reporting end of input. */
  function Peek(ts: seq<Token>): Token {
    if |ts| == 0 then EOF else ts[0]
  }

  /**
    The tokens a scanner actually delivers: everything before the first end of
    input. Nothing after an EOF is ever seen.
   */
  function Delivered(ts: seq<Token>): (d: seq<Token>)
    ensures EOF !in d
    ensures |d| <= |ts| && d == ts[..|d|]
    ensures |d| < |ts| ==> ts[|d|] == EOF
  {
    if Peek(ts) == EOF then [] else [ts[0]] + Delivered(ts[1..])
  }

  /** The token stream that consists of exactly the given import directives. */
  function ImportTokens(ds: seq<ImportDecl>): seq<Token> {
    seq(|ds|, i requires 0 <= i < |ds| => Import(ds[i]))
  }

  /** The token stream that consists of exactly the given member declarations. */
  function MemberTokens(ms: seq<MemberDecl>): seq<Token> {
    seq(|ms|, i requires 0 <= i < |ms| => Member(ms[i]))
  }

  /** A prefix without an end-of-input marker is delivered in full. */
  lemma {:induction false} DeliveredAppend(a: seq<Token>, b: seq<Token>)
    requires EOF !in a
    ensures Delivered(a + b) == a + Delivered(b)
    decreases |a|
  {
    if |a| > 0 {
      assert (a + b)[1..] == a[1..] + b;
      DeliveredAppend(a[1..], b);
    } else {
      assert a + b == b;
    }
  }

  /** A type reference node of the syntax tree, translated from a `Class` object. */
  datatype TypeRef = TypeRef(cls: ClassRef)

  /** The wrapping top-level class declaration. */
  datatype ClassDeclaration = ClassDeclaration(
    isPublic: bool,
    name: string,
    extended: Option<TypeRef>,
    implemented: seq<TypeRef>,
    members: seq<MemberDecl>
  )

  /** The synthetic compilation unit handed to the compiler. */
  datatype CompilationUnit = CompilationUnit(
    fileName: Option<string>,
    packageName: Option<string>,
    imports: seq<ImportDecl>,
    types: seq<ClassDeclaration>
  )

  /** `classToType`: an absent class becomes an absent type. */
  function ClassToType(c: Option<ClassRef>): Option<TypeRef> {
    match c
    case None => None
    case Some(cls) => Some(TypeRef(cls))
  }

  /** `classesToTypes`: element-wise translation, order kept. */
  function ClassesToTypes(cs: seq<ClassRef>): seq<TypeRef> {
    seq(|cs|, i requires 0 <= i < |cs| => TypeRef(cs[i]))
  }
}

=== FILE: unitbuilder.dfy ===
/**
  Building the synthetic compilation unit: default imports, the source's own
  import directives, the wrapping public class declaration, and the member
  declarations up to end of input.
 */
module UnitBuilder {
  import opened Wrappers
  import opened Syntax
  import opened Errors
  import opened Configuration
  import ClassName

  /** A default import is well formed when its scanner delivers exactly one import body. */
  predicate WellFormedDefault(ts: seq<Token>) {
    |Delivered(ts)| == 1 && Delivered(ts)[0].ImportBody?
  }

  /**
    Parses one default import: exactly one import body, then end of input.
    `index` is its position in the configured list.
   */
  function ParseDefaultImport(index: nat, ts: seq<Token>): (r: Result<ImportDecl, Error>)
    ensures r.Success? <==> WellFormedDefault(ts)
    ensures r.Success? ==> Delivered(ts) == [ImportBody(r.value)]
    ensures r.Failure? && Peek(ts).ImportBody? ==>
      r.error == UnexpectedTokenInDefaultImport(index, Peek(ts[1..]))
    ensures r.Failure? && !Peek(ts).ImportBody? ==> r.error == ParseFailure(Peek(ts))
  {
    match Peek(ts)
    case ImportBody(d) =>
      var next := Peek(ts[1..]);
      if next == EOF then Success(d)
      else Failure(UnexpectedTokenInDefaultImport(index, next))
    case _ => Failure(ParseFailure(Peek(ts)))
  }

  /**
    Parses the default imports `defaults[from..]` in order; the first one that
    is not well formed decides the error.
   */
  function ParseDefaultImports(defaults: seq<seq<Token>>, from: nat): (r: Result<seq<ImportDecl>, Error>)
    requires from <= |defaults|
    ensures r.Success? <==> forall k :: from <= k < |defaults| ==> WellFormedDefault(defaults[k])
    ensures r.Success? ==>
      && |r.value| == |defaults| - from
      && forall k :: from <= k < |defaults| ==> Delivered(defaults[k]) == [ImportBody(r.value[k - from])]
    ensures r.Failure? ==> IsSyntaxError(r.error)
    ensures r.Failure? ==>
      exists k :: from <= k < |defaults| && ParseDefaultImport(k, defaults[k]) == Failure(r.error)
                  && forall j :: from <= j < k ==> WellFormedDefault(defaults[j])
    decreases |defaults| - from
  {
    if from == |defaults| then Success([])
    else
      var head := ParseDefaultImport(from, defaults[from]);
      if head.Failure? then Failure(head.error)
      else
        var tail := ParseDefaultImports(defaults, from + 1);
        if tail.Failure? then Failure(tail.error)
        else
          var r := [head.value] + tail.value;
          assert r[0] == head.value && r[1..] == tail.value;
          Success(r)
  }

  /** The configured default imports, `null` read as none. */
  function DefaultsOf(c: Config): seq<seq<Token>> {
    match c.defaultImports
    case None => []
    case Some(ds) => ds
  }

  /**
    The source's import directives: as long as the next token is an import,
    take it. Returns the directives in order and the tokens that remain.
   */
  function TakeImports(ts: seq<Token>): (r: (seq<ImportDecl>, seq<Token>))
    ensures ts == ImportTokens(r.0) + r.1
    ensures !Peek(r.1).Import?
    decreases |ts|
  {
    match Peek(ts)
    case Import(d) =>
      var p := TakeImports(ts[1..]);
      assert ts == [ts[0]] + ts[1..];
      (([d] + p.0), p.1)
    case _ => ([], ts)
  }

  /**
    The class body loop: until end of input, parse one member declaration at a
    time. An import directive or a bare import body is not a class body
    declaration and fails the parse.
    Returns the members in order and the unconsumed rest, which starts at EOF.
   */
  function ParseMembers(ts: seq<Token>): (r: Result<(seq<MemberDecl>, seq<Token>), Error>)
    ensures r.Success? ==> ts == MemberTokens(r.value.0) + r.value.1 && Peek(r.value.1) == EOF
    ensures r.Failure? ==> r.error.ParseFailure? && (r.error.token.Import? || r.error.token.ImportBody?)
    decreases |ts|
  {
    match Peek(ts)
    case EOF => Success(([], ts))
    case Member(m) =>
      var p :- ParseMembers(ts[1..]);
      assert ts == [ts[0]] + ts[1..];
      Success(([m] + p.0, p.1))
    case _ => Failure(ParseFailure(Peek(ts)))
  }

  /**
    `makeCompilationUnit`: a unit carrying the source's file name, the parsed
    default imports, then the source's leading import directives. Without a
    source only the default imports are added. Returns the unit and the
    source's remaining tokens.
   */
  function MakeCompilationUnit(c: Config, source: Option<Source>): (r: Result<(CompilationUnit, seq<Token>), Error>)
    ensures r.Success? <==> ParseDefaultImports(DefaultsOf(c), 0).Success?
    ensures r.Failure? ==> r.error == ParseDefaultImports(DefaultsOf(c), 0).error
    ensures r.Success? ==>
      var defaults := ParseDefaultImports(DefaultsOf(c), 0).value;
      var cu := r.value.0;
      && cu.packageName.None? && cu.types == []
      && |defaults| <= |cu.imports| && cu.imports[..|defaults|] == defaults
      && (source.None? ==> cu.fileName.None? && cu.imports == defaults && r.value.1 == [])
      && (source.Some? ==>
            && cu.fileName == source.value.fileName
            && source.value.tokens == ImportTokens(cu.imports[|defaults|..]) + r.value.1
            && !Peek(r.value.1).Import?)
  {
    var defaults :- ParseDefaultImports(DefaultsOf(c), 0);
    match source
    case None => Success((CompilationUnit(None, None, defaults, []), []))
    case Some(src) =>
      var p := TakeImports(src.tokens);
      assert (defaults + p.0)[|defaults|..] == p.0;
      Success((CompilationUnit(src.fileName, None, defaults + p.0, []), p.1))
  }

  /** The wrapping class declaration as the configuration describes it, still without members. */
  function WrappingDeclaration(c: Config): ClassDeclaration {
    ClassDeclaration(
      true,
      ClassName.Split(c.className).simpleName,
      ClassToType(c.extended),
      ClassesToTypes(c.implemented),
      [])
  }

  /**
    `addPackageMemberClassDeclaration`: declares the package when the class
    name has one, and appends one public class named by the simple name with
    the configured superclass and interfaces.
   */
  function AddPackageMemberClassDeclaration(c: Config, cu: CompilationUnit): (r: CompilationUnit)
    ensures r.fileName == cu.fileName && r.imports == cu.imports
    ensures |r.types| == |cu.types| + 1 && r.types[..|cu.types|] == cu.types
    ensures var d := r.types[|cu.types|];
      && d.isPublic
      && d.members == []
      && '.' !in d.name
      && ('.' !in c.className ==> r.packageName == cu.packageName && d.name == c.className)
      && ('.' in c.className ==> r.packageName.Some? && r.packageName.value + "." + d.name == c.className)
      && (d.extended.Some? <==> c.extended.Some?)
      && (d.extended.Some? ==> d.extended.value.cls == c.extended.value)
      && |d.implemented| == |c.implemented|
      && (forall i :: 0 <= i < |d.implemented| ==> d.implemented[i].cls == c.implemented[i])
  {
    var q := ClassName.Split(c.className);
    var pkg := if q.packageName.Some? then q.packageName else cu.packageName;
    cu.(packageName := pkg, types := cu.types + [WrappingDeclaration(c)])
  }

  /** Puts the parsed members into the last (wrapping) declaration of the unit. */
  function WithMembers(cu: CompilationUnit, members: seq<MemberDecl>): CompilationUnit
    requires |cu.types| > 0
  {
    var last := |cu.types| - 1;
    cu.(types := cu.types[..last] + [cu.types[last].(members := members)])
  }

  /**
    The unit-building part of `cook`: make the unit, add the wrapping class,
    then parse members into it until end of input.
   */
  function BuildUnit(c: Config, source: Source): (r: Result<CompilationUnit, Error>)
    ensures ParseDefaultImports(DefaultsOf(c), 0).Failure? ==>
      r == Failure(ParseDefaultImports(DefaultsOf(c), 0).error)
    ensures r.Failure? ==> IsSyntaxError(r.error)
    ensures r.Success? ==>
      var cu := r.value;
      && cu.fileName == source.fileName
      && cu.packageName == ClassName.Split(c.className).packageName
      && |cu.types| == 1
      && cu.types[0] == WrappingDeclaration(c).(members := cu.types[0].members)
  {
    var p :- MakeCompilationUnit(c, Some(source));
    var cu := AddPackageMemberClassDeclaration(c, p.0);
    var q :- ParseMembers(p.1);
    Success(WithMembers(cu, q.0))
  }

  /** The import directives the well-formed default imports stand for, in configured order. */
  function DefaultDecls(defaults: seq<seq<Token>>): seq<ImportDecl>
    requires forall k :: 0 <= k < |defaults| ==> WellFormedDefault(defaults[k])
  {
    seq(|defaults|, k requires 0 <= k < |defaults| && WellFormedDefault(defaults[k]) => Delivered(defaults[k])[0].decl)
  }

  /** A stream of member declarations has no import and no end of input in it. */
  lemma MemberTokensHaveNoEOF(ms: seq<MemberDecl>)
    ensures EOF !in MemberTokens(ms)
  {
    assert forall i :: 0 <= i < |ms| ==> MemberTokens(ms)[i].Member?;
  }

  /** A stream of import directives has no end of input in it. */
  lemma ImportTokensHaveNoEOF(ds: seq<ImportDecl>)
    ensures EOF !in ImportTokens(ds)
  {
    assert forall i :: 0 <= i < |ds| ==> ImportTokens(ds)[i].Import?;
  }

  /**
    Leading import directives are determined by the stream: if two ways of
    writing it as imports followed by a non-import rest agree, they are the same.
   */
  lemma {:induction false} ImportPrefixUnique(a: seq<ImportDecl>, x: seq<Token>, b: seq<ImportDecl>, y: seq<Token>)
    requires ImportTokens(a) + x == ImportTokens(b) + y
    requires !Peek(x).Import? && !Peek(y).Import?
    ensures a == b && x == y
    decreases |a|
  {
    if |a| > 0 && |b| > 0 {
      assert ImportTokens(a) == [Import(a[0])] + ImportTokens(a[1..]);
      assert ImportTokens(b) == [Import(b[0])] + ImportTokens(b[1..]);
      assert ImportTokens(a[1..]) + x == (ImportTokens(a) + x)[1..];
      assert ImportTokens(b[1..]) + y == (ImportTokens(b) + y)[1..];
      assert Import(a[0]) == (ImportTokens(a) + x)[0] == Import(b[0]);
      ImportPrefixUnique(a[1..], x, b[1..], y);
      assert a == [a[0]] + a[1..] && b == [b[0]] + b[1..];
    } else {
      assert Peek(x) == Peek(ImportTokens(b) + y);
      assert Peek(y) == Peek(ImportTokens(a) + x);
      assert |a| == 0 && |b| == 0;
      assert ImportTokens(a) + x == x && ImportTokens(b) + y == y;
    }
  }

  /** The member loop accepts exactly the streams that deliver member declarations only. */
  lemma {:induction false} ParseMembersComplete(ts: seq<Token>, ms: seq<MemberDecl>)
    requires Delivered(ts) == MemberTokens(ms)
    ensures ParseMembers(ts).Success? && ParseMembers(ts).value.0 == ms
    decreases |ts|
  {
    if |ms| > 0 {
      assert Peek(ts) == Member(ms[0]);
      assert Delivered(ts[1..]) == MemberTokens(ms[1..]);
      ParseMembersComplete(ts[1..], ms[1..]);
      assert ms == [ms[0]] + ms[1..];
    }
  }

  /**
    The member loop fails on the first delivered token that is not a member
    declaration, and names that token, whatever follows it.
   */
  lemma {:induction false} ParseMembersReportsFirstNonMember(ms: seq<MemberDecl>, t: Token, rest: seq<Token>)
    requires !t.EOF? && !t.Member?
    ensures ParseMembers(MemberTokens(ms) + [t] + rest) == Failure(ParseFailure(t))
    decreases |ms|
  {
    var ts := MemberTokens(ms) + [t] + rest;
    if |ms| > 0 {
      assert ts[0] == Member(ms[0]);
      assert ts[1..] == MemberTokens(ms[1..]) + [t] + rest;
      ParseMembersReportsFirstNonMember(ms[1..], t, rest);
    } else {
      assert ts[0] == t;
    }
  }

  /** What the member loop returns is exactly what the scanner delivers. */
  lemma ParseMembersSound(ts: seq<Token>)
    requires ParseMembers(ts).Success?
    ensures Delivered(ts) == MemberTokens(ParseMembers(ts).value.0)
  {
    var p := ParseMembers(ts).value;
    MemberTokensHaveNoEOF(p.0);
    DeliveredAppend(MemberTokens(p.0), p.1);
  }

  /**
    Soundness of the builder: a unit is built only when every default import
    is exactly one import body and the source delivers its import directives
    followed by member declarations. The unit's imports are the default ones,
    in configured order, followed by the source's, in source order, and the
    wrapping class holds exactly the delivered members, in order.
   */
  lemma BuildUnitSound(c: Config, source: Source)
    requires BuildUnit(c, source).Success?
    ensures forall k :: 0 <= k < |DefaultsOf(c)| ==> WellFormedDefault(DefaultsOf(c)[k])
    ensures
      var cu := BuildUnit(c, source).value;
      var n := |DefaultsOf(c)|;
      && n <= |cu.imports|
      && cu.imports[..n] == DefaultDecls(DefaultsOf(c))
      && Delivered(source.tokens) == ImportTokens(cu.imports[n..]) + MemberTokens(cu.types[0].members)
  {
    var defaults := ParseDefaultImports(DefaultsOf(c), 0).value;
    var p := MakeCompilationUnit(c, Some(source)).value;
    var q := ParseMembers(p.1).value;
    var n := |DefaultsOf(c)|;
    var cu := BuildUnit(c, source).value;
    assert cu.imports == p.0.imports;
    assert cu.types[0].members == q.0;
    ImportTokensHaveNoEOF(p.0.imports[n..]);
    DeliveredAppend(ImportTokens(p.0.imports[n..]), p.1);
    ParseMembersSound(p.1);
  }

  /**
    The import loop takes exactly the leading import directives a source
    delivers, and what remains delivers exactly the rest.
   */
  lemma TakeImportsComplete(ts: seq<Token>, imports: seq<ImportDecl>, members: seq<MemberDecl>)
    requires Delivered(ts) == ImportTokens(imports) + MemberTokens(members)
    ensures TakeImports(ts).0 == imports
    ensures Delivered(TakeImports(ts).1) == MemberTokens(members)
  {
    var p := TakeImports(ts);
    ImportTokensHaveNoEOF(p.0);
    DeliveredAppend(ImportTokens(p.0), p.1);
    var rest := Delivered(p.1);
    assert !Peek(rest).Import?;
    if |members| > 0 {
      assert !Peek(MemberTokens(members)).Import?;
    }
    ImportPrefixUnique(p.0, rest, imports, MemberTokens(members));
  }

  /**
    Completeness of the builder: when every default import is exactly one
    import body and the source delivers `imports` followed by `members`, the
    build succeeds with the default imports first, then `imports`, and the
    wrapping class holding `members`.
   */
  lemma BuildUnitComplete(c: Config, source: Source, imports: seq<ImportDecl>, members: seq<MemberDecl>)
    requires forall k :: 0 <= k < |DefaultsOf(c)| ==> WellFormedDefault(DefaultsOf(c)[k])
    requires Delivered(source.tokens) == ImportTokens(imports) + MemberTokens(members)
    ensures BuildUnit(c, source).Success?
    ensures BuildUnit(c, source).value.imports == DefaultDecls(DefaultsOf(c)) + imports
    ensures BuildUnit(c, source).value.types[0].members == members
  {
    var defaults := ParseDefaultImports(DefaultsOf(c), 0);
    assert defaults.value == DefaultDecls(DefaultsOf(c)) by {
      forall k | 0 <= k < |DefaultsOf(c)|
        ensures defaults.value[k] == DefaultDecls(DefaultsOf(c))[k]
      {
        assert Delivered(DefaultsOf(c)[k]) == [ImportBody(defaults.value[k])];
      }
    }
    TakeImportsComplete(source.tokens, imports, members);
    var p := TakeImports(source.tokens);
    var made := MakeCompilationUnit(c, Some(source));
    assert made.value == (CompilationUnit(source.fileName, None, defaults.value + p.0, []), p.1);
    ParseMembersComplete(p.1, members);
  }
}

=== FILE: wrappers.dfy ===
/**
  Absence and failure for the evaluator model. Java marks a missing value with
  `null` and a failed call with a thrown exception; the model uses these two
  datatypes for them instead.
 */
module Wrappers {

  /** A value that may be missing; `None` is where the Java code holds `null`. */
  datatype Option<T> = None | Some(value: T)

  /**
    What a call produced: its return value, or the exception it threw. The
    three members below let `:-` pass an exception on to the caller unchanged.
   */
  datatype Result<T, E> = Success(value: T) | Failure(error: E) {

    /** The call threw. */
    predicate IsFailure() {
      Failure?
    }

    /** The same exception, as the outcome of a call with a different return type. */
    function PropagateFailure<U>(): Result<U, E>
      requires Failure?
    {
      Failure(error)
    }

    /** The return value of a call that did not throw. */
    function Extract(): T
      requires Success?
    {
      value
    }
  }
}
